=== FILE: README.md ===
# redux-promise-await-middleware, modelled in Dafny

This project models the Redux middleware library redux-promise-await-middleware.
The library has four pieces:

- **`promiseMiddleware`** splits an action carrying a `promise` into phase actions.
  The pending action (`type + '//PENDING'`) is emitted at once.
  When the promise settles, a resolved action (`type`) or a rejected action (`type + '//REJECTED'`) follows.
- **`promiseAwaitMiddleware`** tracks every promise action.
  It emits an `__AWAIT_PROMISE` action before forwarding the action.
  It emits a `__CLEAR_PROMISE` action when the promise settles, whatever the outcome.
  Its own actions carry `__await: true`, which its guard skips.
- **`awaitPromiseMiddleware`** is the older tracker, with no `__await` marker and no guard.
- **`promiseAwaitReducer`** keeps the list of outstanding promises.
  An await action appends the promise.
  A clear action removes every occurrence of it.
- **`isPromise`** is the duck-typed test that all three middlewares use.

Modelling choices:

- A middleware call is two pure functions.
  `Dispatch` is the synchronous part: the actions handed to `next`, how the call ends, and whether settlement handlers were attached.
  `Settle` is what those handlers do, given the promise's `Outcome` (`Resolved(v)` or `Rejected(e)`) as an explicit input.
  `Actions.Run` joins the two into the full trace seen by `next`.
- `next` is a parameter `Action -> Reaction`: for each action it either returns a value or throws.
  This covers the throw paths of the code, such as the `.catch` that also catches a throw from forwarding the resolved action.
- JavaScript values (`JsValue.Value`) cover undefined, null, booleans, numbers (with NaN), strings, symbols, objects and functions.
  Objects and functions carry a reference and their visible properties.
  `StrictEq` models `===`, `!==` and `indexOf`: objects compare by reference, and NaN equals nothing.
- An action is a record: its `type` as a string (`kind`), plus every other property in a map.
- Options are a `map<string, string>`, merged over the defaults key by key.
- The reducer's state is a list value. Whether it hands back the array it was given or a new one is modelled separately, by `PromiseAwaitReducer.Transition`, because Redux detects a change by reference.

Behaviour of the code worth noting:

- `promiseMiddleware` never forwards the original action. The call returns the derived promise chain instead.
- `promiseMiddleware` swallows a rejection: its `.catch` returns undefined, so the chain resolves.
- If `next` throws on the resolved action, `promiseMiddleware` emits the rejected action as well as the resolved one.
- The reducer removes every occurrence of the cleared promise, not only the first.
- `awaitPromiseMiddleware` has no guard, so its own await action is tracked again when fed back.

## Model

| member | source | states |
|---|---|---|
| Promises.IsPromise | src/isPromise.js:7-9 | The test accepts exactly a non-null, non-function object whose `then` property is a function. |
| Promises.OnlyObjectsArePromises | src/isPromise.js:8 | Falsy values and all non-objects are rejected, including a function that has a `then` method. |
| Promises.PromiseIsSelfIdentical | src/isPromise.js:8 | Anything accepted as a promise is strictly equal to itself, so `indexOf` and `!==` can find it. |
| AwaitConfig.Merge | src/promiseAwaitMiddleware.js:16-20 | Each of `awaitActionName` and `clearActionName` comes from the options when given and from the defaults otherwise; the two keys are independent. |
| PromiseAwaitMiddleware.Configure | src/promiseAwaitMiddleware.js:3-20 | The guarded tracker's names are `__AWAIT_PROMISE` and `__CLEAR_PROMISE` unless the options override them, each key independently. |
| AwaitPromiseMiddleware.Configure | src/awaitPromiseMiddleware.js:3-20 | The unguarded tracker's names are `__AWAIT_PROMISE` and `__CLEAR_PROMISE` unless the options override them, each key independently. |
| PromiseAwaitReducer.Configure | src/promiseAwaitReducer.js:1-14 | The reducer's configuration starts from `awaitPromiseMiddleware`'s defaults: it is exactly that tracker's configuration for the same options. |
| PromiseMiddleware.Configure | src/promiseMiddleware.js:3-22 | Each suffix comes from its own option when given and otherwise from the defaults `//PENDING`, empty and `//REJECTED`. |
| PromiseMiddleware.PendingAction | src/promiseMiddleware.js:25-41 | The pending action has type `type + pendingSuffix` and every other property of the original, the promise included. |
| PromiseMiddleware.ResolvedAction | src/promiseMiddleware.js:44-47 | The resolved action has type `type + resolvedSuffix`, has `result` set to the value, has no `promise`, and keeps every other property of the original. |
| PromiseMiddleware.RejectedAction | src/promiseMiddleware.js:48-50 | The rejected action has type `type + rejectedSuffix`, has `error` set to the error, has no `promise`, and keeps every other property of the original. |
| PromiseMiddleware.Dispatch | src/promiseMiddleware.js:24-51 | Without a promise, the action goes to `next` once, unchanged and alone, and `next`'s result is returned. With a promise, only the pending action is emitted and the original is never forwarded (when the pending suffix is non-empty). Handlers are attached and the chain is returned exactly when `next` accepts the pending action; otherwise its exception escapes. |
| PromiseMiddleware.Settle | src/promiseMiddleware.js:43-51 | A rejection yields exactly the rejected action. A resolution yields the resolved action, followed by a rejected action carrying the exception only if `next` threw on the resolved one. The chain rejects, with `next`'s exception, exactly when `next` throws on the last action emitted. Otherwise it yields the value when the resolved action was accepted, and undefined in every other case. So a rejection, or a throw on the resolved action, is swallowed. |
| PromiseMiddleware.Catch | src/promiseMiddleware.js:48-50 | The catch handler emits exactly the rejected action for the error. It resolves the chain with undefined unless `next` throws on that action, in which case the chain rejects with that exception. |
| PromiseMiddleware.DefaultPhaseTypes | src/promiseMiddleware.js:3-11 | With the defaults, the pending type is `type//PENDING`, the resolved type is `type` itself and the rejected type is `type//REJECTED`. |
| PromiseMiddleware.OnePhaseActionPerSettlement | src/promiseMiddleware.js:40-51 | With a non-throwing `next`, the whole trace is the pending action followed by exactly one of the resolved or rejected actions, and the returned chain resolves. |
| PromiseAwaitMiddleware.Trackable | src/promiseAwaitMiddleware.js:29 | An action is tracked exactly when its `__await` is falsy and its `promise` is an object whose `then` is a function. A truthy `__await` always exempts it, and so does a promise failing `isPromise`, such as `{then: 5}`. |
| PromiseAwaitMiddleware.AwaitAction | src/promiseAwaitMiddleware.js:34 | The await action has the configured await type, `__await: true`, the same promise, and no other property. |
| PromiseAwaitMiddleware.ClearAction | src/promiseAwaitMiddleware.js:38-43 | The clear action has the configured clear type, `__await: true`, the same promise, and no other property. |
| PromiseAwaitMiddleware.Dispatch | src/promiseAwaitMiddleware.js:22-50 | An action with a truthy `__await` or without a promise is forwarded unchanged and alone. Otherwise the await action comes strictly first, then the original, and the call returns what `next` does with the original. If `next` throws on the await action, the original is not forwarded and no handler is attached. |
| PromiseAwaitMiddleware.Settle | src/promiseAwaitMiddleware.js:36-47 | Whatever the outcome, exactly one clear action for the same promise is emitted. The outcome then passes through unchanged: the value on resolve, the same error on reject. |
| PromiseAwaitMiddleware.TrackingActionsPassThrough | src/promiseAwaitMiddleware.js:29-43 | The await and clear actions of any configuration, fed back into the middleware, are forwarded alone and untracked. |
| PromiseAwaitMiddleware.TrackedTrace | src/promiseAwaitMiddleware.js:33-50 | With a non-throwing `next`, a tracked action yields exactly await, original, clear, and the outcome is preserved. |
| AwaitPromiseMiddleware.AwaitAction | src/awaitPromiseMiddleware.js:31 | The await action has the configured await type and only the `promise` property. |
| AwaitPromiseMiddleware.ClearAction | src/awaitPromiseMiddleware.js:35-40 | The clear action has the configured clear type and only the `promise` property. |
| AwaitPromiseMiddleware.Dispatch | src/awaitPromiseMiddleware.js:22-47 | An action without a promise is forwarded unchanged and alone. An action with one is preceded by its await action, and `next`'s result for the original is returned. If `next` throws on the await action, that exception escapes first. |
| AwaitPromiseMiddleware.Settle | src/awaitPromiseMiddleware.js:33-44 | On either outcome, exactly one clear action for the same promise is emitted. The value or the error then passes through unchanged. |
| AwaitPromiseMiddleware.AwaitActionIsRetracked | src/awaitPromiseMiddleware.js:23-31 | With no guard, the await action fed back in is tracked again and yields two await actions. |
| AwaitPromiseMiddleware.SameDefaultsAsGuardedTracker | src/awaitPromiseMiddleware.js:3-9 | Both trackers default to `__AWAIT_PROMISE` and `__CLEAR_PROMISE`. |
| PromiseAwaitReducer.IndexOf | src/promiseAwaitReducer.js:22 | The result is -1 exactly when no element is strictly equal to the handle; otherwise it is the first position that is. |
| PromiseAwaitReducer.Without | src/promiseAwaitReducer.js:27 | A value survives exactly when it occurs in the list and is not strictly equal to the handle. The length drops by the number of matches, and nothing changes when there is no match. |
| PromiseAwaitReducer.Transition | src/promiseAwaitReducer.js:16-31 | A new array is built only when its contents differ from the state's. Otherwise the given array itself comes back, as with the `indexOf` early return for a clear that matches nothing. |
| PromiseAwaitReducer.Reduce | src/promiseAwaitReducer.js:16-31 | An absent state is `[]`. An await action appends its promise at the end and keeps the prefix; it wins when both names are equal. A clear action removes every match and keeps the rest, and gives an equal list when nothing matches. Any other type gives an equal list. |
| PromiseAwaitReducer.SameArrayIffUnchanged | src/promiseAwaitReducer.js:16-31 | On a given state, the same array comes back exactly when the resulting list equals the state, so Redux's `!==` check reports a change exactly when the contents change. |
| PromiseAwaitReducer.WithoutConcat | src/promiseAwaitReducer.js:27 | Filtering distributes over concatenation, so survivors keep their original order. |
| PromiseAwaitReducer.ClearKeepsOrder | src/promiseAwaitReducer.js:21-27 | A clear step acts on each half of a split state independently, so the order of the remaining promises is kept. |
| PromiseAwaitReducer.WithoutKeepsDistinct | src/promiseAwaitReducer.js:27 | Removing a handle from a duplicate-free list leaves it duplicate-free. |
| PromiseAwaitReducer.ReduceKeepsDistinct | src/promiseAwaitReducer.js:16-28 | Every reducer step keeps the outstanding list duplicate-free, provided no promise is awaited while it is still outstanding. |
| PromiseAwaitReducer.AwaitThenClear | src/promiseAwaitReducer.js:16-27 | From the absent state, awaiting a self-identical handle gives `[h]`, and clearing it then gives `[]`. |
| PromiseAwaitReducer.NaNIsNeverCleared | src/promiseAwaitReducer.js:21-25 | A clear for NaN never matches, so the state is unchanged. |
| Pipeline.TrackerDrivesReducer | src/promiseAwaitReducer.js:1-27 | The reducer's default names match the guarded tracker's. Its trace for one promise, folded through the reducer, goes `[] -> [p]` synchronously and back to `[]` on settlement, whatever the outcome. |
| Pipeline.OverlappingPromises | src/promiseAwaitReducer.js:16-27 | The tracking actions for two overlapping promises, the first settling first, folded through the reducer, give the states `[] -> [p1] -> [p1, p2] -> [p2] -> []`. |
| Pipeline.FetchResolves | src/promiseMiddleware.js:36-47 | `FETCH` whose promise resolves to 42 yields `FETCH//PENDING` with the promise, then `FETCH` with `result: 42`. |
| Pipeline.FetchRejects | src/promiseMiddleware.js:36-50 | `FETCH` whose promise rejects with `"boom"` yields `FETCH//PENDING`, then `FETCH//REJECTED` with `error: "boom"`, and the returned chain resolves. |

## Left out

- Promise scheduling (microtasks, and the order in which several promises settle) is not modelled. Each promise's settlement is an explicit `Outcome` input, and several promises are related by sequencing their actions by hand.
- The trackers discard the promise returned by their `promise.then(...)`. The unhandled rejection that follows from it is runtime behaviour and is not modelled. `Settle` still reports how that chain settles.
- A promise's `then` is assumed to behave like `Promise.prototype.then`: it returns a promise and calls its handlers after the synchronous part of the call, at most once. A thenable whose `then` returns something else is not modelled. For example, `{ then() {} }` makes the trailing `.catch` throw synchronously. A thenable that calls its handlers synchronously is not modelled either: it would put the trackers' clear action before the original action. A `then` that throws is not modelled.
- `next` is a function of the action alone. A downstream handler whose behaviour depends on time or store state is not modelled.
- Redux `applyMiddleware`, the store argument that `promiseAwaitMiddleware` ignores, and `src/index.js` (re-exports only) are not modelled.
- Action `type` values other than strings are not modelled, nor the template-literal conversion they would get. Option values other than strings are not modelled either.
- Object-spread corner cases are not modelled: getters, symbol keys, non-enumerable and inherited properties of actions, and key order.
- BigInt values and property reads on primitive wrappers (for example a `then` added to `String.prototype`) are not modelled.

=== FILE: actions.dfy ===
/**
 * Redux actions and the shape of one middleware call. A middleware is read
 * as two pure functions: the synchronous part of `(action) => ...`, which
 * produces a `Step`, and the handlers attached to the action's promise,
 * which given the promise's outcome produce a `Settled`.
 */
module Actions {
  import opened JsValue

  /** A plain action object: its `type` (a string) and every other property. */
  datatype ActionRecord = ActionRecord(kind: string, props: map<string, Value>)

  /** `kind` is the single source of the `type` property, so `props` never holds it. */
  type Action = a: ActionRecord | "type" !in a.props witness ActionRecord("", map[])

  /** `action[k]`, undefined when the property is absent. */
  function Field(a: Action, k: string): Value {
    if k == "type" then Str(a.kind)
    else if k in a.props then a.props[k]
    else Undefined
  }

  /** An optional argument: `None` stands for an argument left `undefined`, such as the reducer's initial `state`. */
  datatype Option<+T> = None | Some(value: T)

  /** What the downstream handler `next` does with one action: return a value or throw. */
  datatype Reaction = Returned(value: Value) | Threw(error: Value)

  /**
   * How the synchronous middleware call ends: it returns a value, throws,
   * or returns the promise chain it derived from the action's promise.
   */
  datatype Completion = Normal(value: Value) | Abrupt(error: Value) | Chained

  /** The completion of `return next(action)`. */
  function Complete(r: Reaction): Completion {
    match r
    case Returned(v) => Normal(v)
    case Threw(e) => Abrupt(e)
  }

  /**
   * The synchronous part of one middleware call: the actions handed to
   * `next`, in order; how the call ends; and whether settlement handlers
   * were attached to the action's promise.
   */
  datatype Step = Step(emitted: seq<Action>, completion: Completion, attached: bool)

  /** How a promise settles. */
  datatype Outcome = Resolved(value: Value) | Rejected(error: Value)

  /** What the settlement handlers hand to `next`, and how the handler chain itself settles. */
  datatype Settled = Settled(emitted: seq<Action>, chain: Outcome)

  /** The whole trace seen by `next`: the synchronous part, then the settlement part if handlers were attached. */
  function Run(step: Step, settled: Settled): seq<Action> {
    if step.attached then step.emitted + settled.emitted else step.emitted
  }

  /** `{ ...defaults, ...options }` read at one key: the option when given, the default otherwise. */
  function Pick(options: map<string, string>, key: string, default: string): string {
    if key in options then options[key] else default
  }
}

=== FILE: awaitconfig.dfy ===
/**
 * The configuration shared by both await trackers and the await reducer:
 * the type names of the tracking actions.
 */
module AwaitConfig {
  import opened Actions

  datatype Config = Config(awaitActionName: string, clearActionName: string)

  /** `{ ...defaults, ...options }`: each given option replaces its own default and nothing else. */
  function Merge(defaults: Config, options: map<string, string>): (c: Config)
    ensures "awaitActionName" in options ==> c.awaitActionName == options["awaitActionName"]
    ensures "awaitActionName" !in options ==> c.awaitActionName == defaults.awaitActionName
    ensures "clearActionName" in options ==> c.clearActionName == options["clearActionName"]
    ensures "clearActionName" !in options ==> c.clearActionName == defaults.clearActionName
  {
    Config(
      Pick(options, "awaitActionName", defaults.awaitActionName),
      Pick(options, "clearActionName", defaults.clearActionName))
  }
}

=== FILE: awaitpromisemiddleware.dfy ===
/**
 * `awaitPromiseMiddleware`: the earlier await tracker. It emits the same
 * await and clear actions as `promiseAwaitMiddleware` but without the
 * `__await` marker and without the guard, so its own await action, which
 * carries the promise, is itself trackable.
 */
module AwaitPromiseMiddleware {
  import opened JsValue
  import opened Promises
  import opened Actions
  import AwaitConfig
  import PromiseAwaitMiddleware

  const AwaitPromiseAction: string := "__AWAIT_PROMISE"
  const ClearPromiseAction: string := "__CLEAR_PROMISE"

  /** The exported `defaults`, which the await reducer also reads. */
  const Defaults: AwaitConfig.Config := AwaitConfig.Config(AwaitPromiseAction, ClearPromiseAction)

  /** The merged configuration: `__AWAIT_PROMISE` and `__CLEAR_PROMISE` unless overridden, key by key. */
  function Configure(options: map<string, string>): (c: AwaitConfig.Config)
    ensures c.awaitActionName == if "awaitActionName" in options then options["awaitActionName"] else "__AWAIT_PROMISE"
    ensures c.clearActionName == if "clearActionName" in options then options["clearActionName"] else "__CLEAR_PROMISE"
  {
    AwaitConfig.Merge(Defaults, options)
  }

  /** `{ type: awaitActionName, promise }`. */
  function AwaitAction(c: AwaitConfig.Config, promise: Value): (r: Action)
    ensures r.kind == c.awaitActionName
    ensures r.props.Keys == {"promise"} && Field(r, "promise") == promise
  {
    ActionRecord(c.awaitActionName, map["promise" := promise])
  }

  /** `{ type: clearActionName, promise }`. */
  function ClearAction(c: AwaitConfig.Config, promise: Value): (r: Action)
    ensures r.kind == c.clearActionName
    ensures r.props.Keys == {"promise"} && Field(r, "promise") == promise
  {
    ActionRecord(c.clearActionName, map["promise" := promise])
  }

  /**
   * The synchronous part of `(action) => { ... }`: an action without a
   * promise is forwarded unchanged and alone; one with a promise is
   * preceded by its await action, and the call returns what `next` does
   * with the original. A throw from `next` on the await action escapes
   * before anything else happens.
   */
  function Dispatch(c: AwaitConfig.Config, next: Action -> Reaction, a: Action): (s: Step)
    ensures !IsPromise(Field(a, "promise")) ==>
      s.emitted == [a] && s.completion == Complete(next(a)) && !s.attached
    ensures IsPromise(Field(a, "promise")) ==>
      |s.emitted| >= 1 && s.emitted[0] == AwaitAction(c, Field(a, "promise"))
    ensures IsPromise(Field(a, "promise")) && next(AwaitAction(c, Field(a, "promise"))).Returned? ==>
      s.emitted == [AwaitAction(c, Field(a, "promise")), a] && s.attached && s.completion == Complete(next(a))
    ensures IsPromise(Field(a, "promise")) && next(AwaitAction(c, Field(a, "promise"))).Threw? ==>
      s.emitted == [AwaitAction(c, Field(a, "promise"))] && !s.attached &&
      s.completion == Abrupt(next(AwaitAction(c, Field(a, "promise"))).error)
    ensures s.completion != Chained
  {
    if !IsPromise(Field(a, "promise")) then
      Step([a], Complete(next(a)), false)
    else
      var tracking := AwaitAction(c, Field(a, "promise"));
      match next(tracking)
      case Returned(_) => Step([tracking, a], Complete(next(a)), true)
      case Threw(e) => Step([tracking], Abrupt(e), false)
  }

  /** `promise.then(onResolved, onRejected)`: forward the clear action, then pass the outcome on. */
  function Settle(c: AwaitConfig.Config, next: Action -> Reaction, a: Action, outcome: Outcome): (s: Settled)
    ensures s.emitted == [ClearAction(c, Field(a, "promise"))]
    ensures next(ClearAction(c, Field(a, "promise"))).Returned? ==> s.chain == outcome
    ensures next(ClearAction(c, Field(a, "promise"))).Threw? ==>
      s.chain == Rejected(next(ClearAction(c, Field(a, "promise"))).error)
  {
    var clear := ClearAction(c, Field(a, "promise"));
    match next(clear)
    case Returned(_) => Settled([clear], outcome)
    case Threw(t) => Settled([clear], Rejected(t))
  }

  /**
   * No guard: the await action for a promise, fed back into the middleware,
   * is tracked again, producing a second await action ahead of itself.
   */
  lemma AwaitActionIsRetracked(c: AwaitConfig.Config, next: Action -> Reaction, promise: Value)
    requires IsPromise(promise)
    requires next(AwaitAction(c, promise)).Returned?
    ensures Dispatch(c, next, AwaitAction(c, promise)).emitted == [AwaitAction(c, promise), AwaitAction(c, promise)]
    ensures Dispatch(c, next, AwaitAction(c, promise)).attached
  {
  }

  /** Both trackers ship the same default names. */
  lemma SameDefaultsAsGuardedTracker()
    ensures Defaults == PromiseAwaitMiddleware.Defaults
  {
  }
}

=== FILE: ispromise.dfy ===
/** The duck-typed "is this a promise" test shared by all three middlewares. */
module Promises {
  import opened JsValue

  /**
   * `isPromise(v)`: truthy, `typeof v === 'object'` and `typeof v.then === 'function'`.
   * Equivalently: a plain object (not null, not a function) whose `then`
   * is a function. Nothing else about the value is required.
   */
  function IsPromise(v: Value): (r: bool)
    ensures r <==> v.Obj? && "then" in v.props && v.props["then"].Func?
  {
    Truthy(v) && TypeOf(v) == "object" && TypeOf(GetProp(v, "then")) == "function"
  }

  /** Falsy values and every non-object (a function with a `then` method included) are rejected. */
  lemma OnlyObjectsArePromises(v: Value)
    requires !Truthy(v) || TypeOf(v) != "object"
    ensures !IsPromise(v)
  {
  }

  /** A promise is an object, so it is strictly equal to itself (unlike NaN). */
  lemma PromiseIsSelfIdentical(v: Value)
    requires IsPromise(v)
    ensures StrictEq(v, v)
  {
  }
}

=== FILE: jsvalue.dfy ===
/**
 * The slice of JavaScript's value model that the middleware inspects:
 * truthiness (`!!v`), `typeof`, property reads and strict equality (`===`).
 */
module JsValue {

  /** Object identity. Two object values denote the same object iff their references agree. */
  type Ref = nat

  /**
   * A JavaScript value. The `props` of an object or function hold every
   * property visible through it, own or inherited from its prototype chain
   * (a native Promise inherits `then` from `Promise.prototype`).
   */
  datatype Value =
    | Undefined
    | Null
    | Bool(b: bool)
    | Num(x: real)      // a finite number; +0 and -0 are both 0.0
    | NaN
    | Str(s: string)
    | Sym(id: nat)
    | Obj(ref: Ref, props: map<string, Value>)
    | Func(ref: Ref, props: map<string, Value>)

  /** `!!v`: false exactly for undefined, null, false, 0, NaN and the empty string. */
  predicate Truthy(v: Value) {
    match v
    case Undefined => false
    case Null => false
    case Bool(b) => b
    case Num(x) => x != 0.0
    case NaN => false
    case Str(s) => s != ""
    case _ => true
  }

  /** `typeof v`, including its historical quirk `typeof null === 'object'`. */
  function TypeOf(v: Value): string {
    match v
    case Undefined => "undefined"
    case Null => "object"
    case Bool(_) => "boolean"
    case Num(_) => "number"
    case NaN => "number"
    case Str(_) => "string"
    case Sym(_) => "symbol"
    case Obj(_, _) => "object"
    case Func(_, _) => "function"
  }

  /**
   * `v[k]` for a value on which a property read does not throw. Primitive
   * wrappers are taken to expose no property of interest, so a read on a
   * primitive yields undefined.
   */
  function GetProp(v: Value, k: string): Value {
    if (v.Obj? || v.Func?) && k in v.props then v.props[k] else Undefined
  }

  /** `a === b`: objects compare by identity, NaN equals nothing, other primitives by value. */
  predicate StrictEq(a: Value, b: Value) {
    match a
    case Obj(r, _) => b.Obj? && b.ref == r
    case Func(r, _) => b.Func? && b.ref == r
    case NaN => false
    case _ => a == b
  }
}

=== FILE: pipeline.dfy ===
/**
 * The pieces working together: actions emitted by a tracker, folded through
 * the await reducer, and concrete traces for a sample `FETCH` action.
 */
module Pipeline {
  import opened JsValue
  import opened Promises
  import opened Actions
  import AwaitConfig
  import PromiseMiddleware
  import PromiseAwaitMiddleware
  import PromiseAwaitReducer

  /** The reducer state after each of `actions` in turn, starting from `s`. */
  function ReduceAll(c: AwaitConfig.Config, s: seq<Value>, actions: seq<Action>): seq<Value>
    decreases |actions|
  {
    if actions == [] then s
    else ReduceAll(c, PromiseAwaitReducer.Reduce(c, Some(s), actions[0]), actions[1..])
  }

  lemma {:induction false} ReduceAllConcat(c: AwaitConfig.Config, s: seq<Value>, xs: seq<Action>, ys: seq<Action>)
    ensures ReduceAll(c, s, xs + ys) == ReduceAll(c, ReduceAll(c, s, xs), ys)
    decreases |xs|
  {
    if xs == [] {
      assert xs + ys == ys;
    } else {
      assert (xs + ys)[0] == xs[0];
      assert (xs + ys)[1..] == xs[1..] + ys;
      ReduceAllConcat(c, PromiseAwaitReducer.Reduce(c, Some(s), xs[0]), xs[1..], ys);
    }
  }

  /** Folding a single action is one reducer step. */
  lemma ReduceAllOne(c: AwaitConfig.Config, s: seq<Value>, x: Action)
    ensures ReduceAll(c, s, [x]) == PromiseAwaitReducer.Reduce(c, Some(s), x)
  {
    assert [x][1..] == [];
  }

  /**
   * The reducer's default names are the type names `promiseAwaitMiddleware`
   * emits by default, so the tracker's trace for one promise drives the
   * reducer from `[]` to `[p]` (await, then the original action) and back
   * to `[]` on settlement, whatever the outcome.
   */
  lemma TrackerDrivesReducer(next: Action -> Reaction, a: Action, outcome: Outcome)
    requires PromiseAwaitMiddleware.Trackable(a)
    requires forall x :: next(x).Returned?
    requires a.kind != PromiseAwaitMiddleware.AwaitPromiseAction
    requires a.kind != PromiseAwaitMiddleware.ClearPromiseAction
    ensures ReduceAll(PromiseAwaitReducer.Configure(map[]), [],
                      PromiseAwaitMiddleware.Dispatch(PromiseAwaitMiddleware.Configure(map[]), next, a).emitted)
            == [Field(a, "promise")]
    ensures ReduceAll(PromiseAwaitReducer.Configure(map[]), [Field(a, "promise")],
                      PromiseAwaitMiddleware.Settle(PromiseAwaitMiddleware.Configure(map[]), next, a, outcome).emitted)
            == []
    ensures ReduceAll(PromiseAwaitReducer.Configure(map[]), [],
                      Run(PromiseAwaitMiddleware.Dispatch(PromiseAwaitMiddleware.Configure(map[]), next, a),
                          PromiseAwaitMiddleware.Settle(PromiseAwaitMiddleware.Configure(map[]), next, a, outcome)))
            == []
  {
    var rc := PromiseAwaitReducer.Configure(map[]);
    var tc := PromiseAwaitMiddleware.Configure(map[]);
    var p := Field(a, "promise");
    assert rc == tc;
    var w := PromiseAwaitMiddleware.AwaitAction(tc, p);
    var k := PromiseAwaitMiddleware.ClearAction(tc, p);
    assert PromiseAwaitMiddleware.Dispatch(tc, next, a).emitted == [w, a];
    assert PromiseAwaitReducer.Reduce(rc, Some([]), w) == [p];
    assert PromiseAwaitReducer.Reduce(rc, Some([p]), a) == [p];
    assert ReduceAll(rc, [], [w, a]) == ReduceAll(rc, [p], [a]);
    assert ReduceAll(rc, [p], [a]) == ReduceAll(rc, [p], []);
    PromiseIsSelfIdentical(p);
    assert PromiseAwaitReducer.IndexOf([p], p) == 0;
    assert PromiseAwaitReducer.Reduce(rc, Some([p]), k) == [];
    assert ReduceAll(rc, [p], [k]) == ReduceAll(rc, [], []);
    ReduceAllConcat(rc, [], [w, a], [k]);
  }

  /**
   * The tracking actions for two overlapping promises, the first settling
   * first, folded through the reducer: the outstanding list goes `[] -> [p1] -> [p1, p2] -> [p2] -> []`.
   */
  lemma OverlappingPromises(c: AwaitConfig.Config, p1: Value, p2: Value)
    requires IsPromise(p1) && IsPromise(p2) && p1.ref != p2.ref
    requires c.awaitActionName != c.clearActionName
    ensures var s1 := ReduceAll(c, [], [PromiseAwaitMiddleware.AwaitAction(c, p1)]);
            var s2 := ReduceAll(c, s1, [PromiseAwaitMiddleware.AwaitAction(c, p2)]);
            var s3 := ReduceAll(c, s2, [PromiseAwaitMiddleware.ClearAction(c, p1)]);
            var s4 := ReduceAll(c, s3, [PromiseAwaitMiddleware.ClearAction(c, p2)]);
            s1 == [p1] && s2 == [p1, p2] && s3 == [p2] && s4 == []
  {
    var w1 := PromiseAwaitMiddleware.AwaitAction(c, p1);
    var w2 := PromiseAwaitMiddleware.AwaitAction(c, p2);
    var k1 := PromiseAwaitMiddleware.ClearAction(c, p1);
    var k2 := PromiseAwaitMiddleware.ClearAction(c, p2);
    assert PromiseAwaitReducer.Reduce(c, Some([]), w1) == [p1];
    assert [p1] + [p2] == [p1, p2];
    assert PromiseAwaitReducer.Reduce(c, Some([p1]), w2) == [p1, p2];
    var s2 := [p1, p2];
    assert PromiseAwaitReducer.IndexOf(s2, p1) == 0;
    assert s2[1..] == [p2];
    assert PromiseAwaitReducer.Without([p2], p1) == [p2];
    assert PromiseAwaitReducer.Without(s2, p1) == [p2];
    assert PromiseAwaitReducer.Reduce(c, Some(s2), k1) == [p2];
    assert PromiseAwaitReducer.IndexOf([p2], p2) == 0;
    assert [p2][1..] == [];
    assert PromiseAwaitReducer.Reduce(c, Some([p2]), k2) == [];
    ReduceAllOne(c, [], w1);
    ReduceAllOne(c, [p1], w2);
    ReduceAllOne(c, s2, k1);
    ReduceAllOne(c, [p2], k2);
  }

  /** The sample action: type `FETCH`, carrying only its promise. */
  function Fetch(p: Value): (a: Action)
    ensures a.kind == "FETCH" && a.props.Keys == {"promise"} && Field(a, "promise") == p
  {
    ActionRecord("FETCH", map["promise" := p])
  }

  lemma FetchRest(p: Value)
    ensures PromiseMiddleware.Rest(Fetch(p)) == map[]
  {
    assert map["promise" := p] - {"promise"} == map[];
  }

  lemma FetchPending(p: Value)
    ensures PromiseMiddleware.PendingAction(PromiseMiddleware.Configure(map[]), Fetch(p))
            == ActionRecord("FETCH//PENDING", map["promise" := p])
  {
    FetchRest(p);
  }

  lemma FetchResolved(p: Value, v: Value)
    ensures PromiseMiddleware.ResolvedAction(PromiseMiddleware.Configure(map[]), Fetch(p), v)
            == ActionRecord("FETCH", map["result" := v])
  {
    FetchRest(p);
    assert "FETCH" + "" == "FETCH";
  }

  lemma FetchRejected(p: Value, e: Value)
    ensures PromiseMiddleware.RejectedAction(PromiseMiddleware.Configure(map[]), Fetch(p), e)
            == ActionRecord("FETCH//REJECTED", map["error" := e])
  {
    FetchRest(p);
  }

  /** `FETCH` with a promise resolving to 42, default suffixes: `FETCH//PENDING`, then `FETCH` with `result: 42`. */
  lemma FetchResolves(next: Action -> Reaction, p: Value)
    requires IsPromise(p)
    requires forall x :: next(x).Returned?
    ensures var a := Fetch(p);
            var c := PromiseMiddleware.Configure(map[]);
            Run(PromiseMiddleware.Dispatch(c, next, a), PromiseMiddleware.Settle(c, next, a, Resolved(Num(42.0))))
            == [ActionRecord("FETCH//PENDING", map["promise" := p]), ActionRecord("FETCH", map["result" := Num(42.0)])]
  {
    FetchPending(p);
    FetchResolved(p, Num(42.0));
    PromiseMiddleware.OnePhaseActionPerSettlement(PromiseMiddleware.Configure(map[]), next, Fetch(p), Resolved(Num(42.0)));
  }

  /**
   * The same action whose promise rejects with `"boom"`: `FETCH//PENDING`,
   * then `FETCH//REJECTED` with `error: "boom"`; the returned chain resolves.
   */
  lemma FetchRejects(next: Action -> Reaction, p: Value)
    requires IsPromise(p)
    requires forall x :: next(x).Returned?
    ensures var a := Fetch(p);
            var c := PromiseMiddleware.Configure(map[]);
            && Run(PromiseMiddleware.Dispatch(c, next, a), PromiseMiddleware.Settle(c, next, a, Rejected(Str("boom"))))
               == [ActionRecord("FETCH//PENDING", map["promise" := p]), ActionRecord("FETCH//REJECTED", map["error" := Str("boom")])]
            && PromiseMiddleware.Settle(c, next, a, Rejected(Str("boom"))).chain == Resolved(Undefined)
  {
    FetchPending(p);
    FetchRejected(p, Str("boom"));
    PromiseMiddleware.OnePhaseActionPerSettlement(PromiseMiddleware.Configure(map[]), next, Fetch(p), Rejected(Str("boom")));
  }
}

=== FILE: promiseawaitmiddleware.dfy ===
/**
 * `promiseAwaitMiddleware`: for every action carrying a promise, emits an
 * await action before forwarding the action, and a clear action when the
 * promise settles, whatever the outcome. The tracking actions carry
 * `__await: true`, and any action with a truthy `__await` is passed
 * through untracked, so the middleware never tracks its own actions.
 */
module PromiseAwaitMiddleware {
  import opened JsValue
  import opened Promises
  import opened Actions
  import AwaitConfig

  const AwaitPromiseAction: string := "__AWAIT_PROMISE"
  const ClearPromiseAction: string := "__CLEAR_PROMISE"

  /** The exported `defaults`. */
  const Defaults: AwaitConfig.Config := AwaitConfig.Config(AwaitPromiseAction, ClearPromiseAction)

  /** The merged configuration: `__AWAIT_PROMISE` and `__CLEAR_PROMISE` unless overridden, key by key. */
  function Configure(options: map<string, string>): (c: AwaitConfig.Config)
    ensures c.awaitActionName == if "awaitActionName" in options then options["awaitActionName"] else "__AWAIT_PROMISE"
    ensures c.clearActionName == if "clearActionName" in options then options["clearActionName"] else "__CLEAR_PROMISE"
  {
    AwaitConfig.Merge(Defaults, options)
  }

  /** The guard: an action is tracked when `__await` is falsy and its `promise` passes `isPromise`. */
  predicate Trackable(a: Action): (r: bool)
    ensures r ==> Field(a, "promise").Obj? && "then" in Field(a, "promise").props &&
                  Field(a, "promise").props["then"].Func?
    ensures Truthy(Field(a, "__await")) ==> !r
    ensures !Truthy(Field(a, "__await")) && IsPromise(Field(a, "promise")) ==> r
  {
    !Truthy(Field(a, "__await")) && IsPromise(Field(a, "promise"))
  }

  /** `{ type: awaitActionName, __await: true, promise }`. */
  function AwaitAction(c: AwaitConfig.Config, promise: Value): (r: Action)
    ensures r.kind == c.awaitActionName
    ensures r.props.Keys == {"__await", "promise"}
    ensures Field(r, "__await") == Bool(true) && Field(r, "promise") == promise
  {
    ActionRecord(c.awaitActionName, map["__await" := Bool(true), "promise" := promise])
  }

  /** `{ type: clearActionName, __await: true, promise }`. */
  function ClearAction(c: AwaitConfig.Config, promise: Value): (r: Action)
    ensures r.kind == c.clearActionName
    ensures r.props.Keys == {"__await", "promise"}
    ensures Field(r, "__await") == Bool(true) && Field(r, "promise") == promise
  {
    ActionRecord(c.clearActionName, map["__await" := Bool(true), "promise" := promise])
  }

  /**
   * The synchronous part of `(action) => { ... }`. An untrackable action is
   * forwarded unchanged and alone. A trackable one is preceded by its await
   * action; the call returns whatever `next` does with the original. If
   * `next` throws on the await action, the exception escapes before the
   * handlers are attached and before the original is forwarded.
   */
  function Dispatch(c: AwaitConfig.Config, next: Action -> Reaction, a: Action): (s: Step)
    ensures !Trackable(a) ==> s.emitted == [a] && s.completion == Complete(next(a)) && !s.attached
    ensures Trackable(a) ==> |s.emitted| >= 1 && s.emitted[0] == AwaitAction(c, Field(a, "promise"))
    ensures Trackable(a) && next(AwaitAction(c, Field(a, "promise"))).Returned? ==>
      s.emitted == [AwaitAction(c, Field(a, "promise")), a] && s.attached && s.completion == Complete(next(a))
    ensures Trackable(a) && next(AwaitAction(c, Field(a, "promise"))).Threw? ==>
      s.emitted == [AwaitAction(c, Field(a, "promise"))] && !s.attached &&
      s.completion == Abrupt(next(AwaitAction(c, Field(a, "promise"))).error)
    ensures s.completion != Chained
  {
    if !Trackable(a) then
      Step([a], Complete(next(a)), false)
    else
      var tracking := AwaitAction(c, Field(a, "promise"));
      match next(tracking)
      case Returned(_) => Step([tracking, a], Complete(next(a)), true)
      case Threw(e) => Step([tracking], Abrupt(e), false)
  }

  /**
   * `promise.then(onResolved, onRejected)` once the promise settles: both
   * handlers forward the clear action, then pass the outcome on unchanged
   * (a throw from `next` replaces it).
   */
  function Settle(c: AwaitConfig.Config, next: Action -> Reaction, a: Action, outcome: Outcome): (s: Settled)
    ensures s.emitted == [ClearAction(c, Field(a, "promise"))]
    ensures next(ClearAction(c, Field(a, "promise"))).Returned? ==> s.chain == outcome
    ensures next(ClearAction(c, Field(a, "promise"))).Threw? ==>
      s.chain == Rejected(next(ClearAction(c, Field(a, "promise"))).error)
  {
    var clear := ClearAction(c, Field(a, "promise"));
    match next(clear)
    case Returned(_) => Settled([clear], outcome)
    case Threw(t) => Settled([clear], Rejected(t))
  }

  /**
   * The guard at work: the await and clear actions of any configuration,
   * fed back into the middleware, are forwarded unchanged and alone.
   */
  lemma TrackingActionsPassThrough(c: AwaitConfig.Config, c': AwaitConfig.Config, next: Action -> Reaction, promise: Value)
    ensures Dispatch(c', next, AwaitAction(c, promise)) ==
      Step([AwaitAction(c, promise)], Complete(next(AwaitAction(c, promise))), false)
    ensures Dispatch(c', next, ClearAction(c, promise)) ==
      Step([ClearAction(c, promise)], Complete(next(ClearAction(c, promise))), false)
  {
  }

  /**
   * With a `next` that never throws, a trackable action yields the await
   * action, the action itself, and on settlement exactly one clear action
   * for the same promise, whatever the outcome; the outcome passes through.
   */
  lemma TrackedTrace(c: AwaitConfig.Config, next: Action -> Reaction, a: Action, outcome: Outcome)
    requires Trackable(a)
    requires forall x :: next(x).Returned?
    ensures Run(Dispatch(c, next, a), Settle(c, next, a, outcome)) ==
      [AwaitAction(c, Field(a, "promise")), a, ClearAction(c, Field(a, "promise"))]
    ensures Settle(c, next, a, outcome).chain == outcome
  {
  }
}

=== FILE: promiseawaitreducer.dfy ===
/**
 * `promiseAwaitReducer`: collects the promises still outstanding. An await
 * action appends its promise; a clear action removes every occurrence of
 * its promise; any other action leaves the state alone.
 */
module PromiseAwaitReducer {
  import opened JsValue
  import opened Actions
  import AwaitConfig
  import AwaitPromiseMiddleware

  /** The configuration starts from `awaitPromiseMiddleware`'s defaults. */
  function Configure(options: map<string, string>): (c: AwaitConfig.Config)
    ensures c == AwaitPromiseMiddleware.Configure(options)
    ensures c.awaitActionName == if "awaitActionName" in options then options["awaitActionName"] else "__AWAIT_PROMISE"
    ensures c.clearActionName == if "clearActionName" in options then options["clearActionName"] else "__CLEAR_PROMISE"
  {
    AwaitConfig.Merge(AwaitPromiseMiddleware.Defaults, options)
  }

  /** `state = []`: an absent state is the empty list. */
  function Current(state: Option<seq<Value>>): seq<Value> {
    match state
    case None => []
    case Some(s) => s
  }

  /** `s.indexOf(h)`: the first position holding a value strictly equal to `h`, or -1. */
  function IndexOf(s: seq<Value>, h: Value): (i: int)
    ensures -1 <= i < |s|
    ensures i == -1 <==> forall j | 0 <= j < |s| :: !StrictEq(s[j], h)
    ensures 0 <= i ==> StrictEq(s[i], h) && forall j | 0 <= j < i :: !StrictEq(s[j], h)
  {
    if s == [] then -1
    else if StrictEq(s[0], h) then 0
    else
      var i := IndexOf(s[1..], h);
      if i < 0 then -1 else i + 1
  }

  /** How many elements of `s` are strictly equal to `h`. */
  function Occurrences(s: seq<Value>, h: Value): (n: nat)
    ensures n <= |s|
    ensures n == 0 <==> forall j | 0 <= j < |s| :: !StrictEq(s[j], h)
  {
    if s == [] then 0
    else (if StrictEq(s[0], h) then 1 else 0) + Occurrences(s[1..], h)
  }

  /** `s.filter((p) => p !== h)`. */
  function Without(s: seq<Value>, h: Value): (r: seq<Value>)
    ensures forall x :: x in r <==> x in s && !StrictEq(x, h)
    ensures |r| == |s| - Occurrences(s, h)
    ensures (forall j | 0 <= j < |s| :: !StrictEq(s[j], h)) ==> r == s
  {
    if s == [] then []
    else (if StrictEq(s[0], h) then [] else [s[0]]) + Without(s[1..], h)
  }

  /**
   * What the reducer hands back: `SameArray` is `return state`, the very
   * array it was given (or the default `[]`); `NewArray` is a fresh array
   * built by `concat` or `filter`. Redux compares states with `!==`, so
   * only a `NewArray` is seen as a change.
   */
  datatype Handback = SameArray | NewArray(list: seq<Value>)

  /**
   * The reducer's branches. The await case is matched first, so when both
   * names are configured equal an action of that type is always an await.
   * The `indexOf` early return makes sure a new array is built only when
   * its contents differ from the state's.
   */
  function Transition(c: AwaitConfig.Config, state: Option<seq<Value>>, a: Action): (r: Handback)
    ensures r.NewArray? ==> r.list != Current(state)
  {
    var s := Current(state);
    if a.kind == c.awaitActionName then
      assert |s + [Field(a, "promise")]| != |s|;
      NewArray(s + [Field(a, "promise")])
    else if a.kind == c.clearActionName then
      if IndexOf(s, Field(a, "promise")) < 0 then SameArray
      else
        assert Occurrences(s, Field(a, "promise")) > 0;
        NewArray(Without(s, Field(a, "promise")))
    else
      SameArray
  }

  /** The reducer: the contents of the array `Transition` hands back. */
  function Reduce(c: AwaitConfig.Config, state: Option<seq<Value>>, a: Action): (r: seq<Value>)
    ensures a.kind == c.awaitActionName ==>
      |r| == |Current(state)| + 1 && r[..|Current(state)|] == Current(state) &&
      r[|Current(state)|] == Field(a, "promise")
    ensures a.kind != c.awaitActionName && a.kind == c.clearActionName ==>
      (forall x :: x in r <==> x in Current(state) && !StrictEq(x, Field(a, "promise"))) &&
      |r| == |Current(state)| - Occurrences(Current(state), Field(a, "promise"))
    ensures a.kind != c.awaitActionName && a.kind == c.clearActionName ==>
      (IndexOf(Current(state), Field(a, "promise")) < 0 ==> r == Current(state))
    ensures a.kind != c.awaitActionName && a.kind != c.clearActionName ==> r == Current(state)
  {
    match Transition(c, state, a)
    case SameArray => Current(state)
    case NewArray(list) => list
  }

  /**
   * Change detection: on a given state, the reducer hands back that same
   * array exactly when the resulting contents equal the state's, so
   * Redux's reference check and a comparison of contents agree.
   */
  lemma SameArrayIffUnchanged(c: AwaitConfig.Config, s: seq<Value>, a: Action)
    ensures Transition(c, Some(s), a).SameArray? <==> Reduce(c, Some(s), a) == s
  {
  }

  /**
   * `Without`'s recursion with no contract attached, so that reasoning
   * about the shape of the result does not drag that contract along.
   */
  ghost function Survivors(s: seq<Value>, h: Value): seq<Value> {
    if s == [] then [] else (if StrictEq(s[0], h) then [] else [s[0]]) + Survivors(s[1..], h)
  }

  lemma {:induction false} WithoutIsSurvivors(s: seq<Value>, h: Value)
    ensures Without(s, h) == Survivors(s, h)
  {
    if s != [] {
      WithoutIsSurvivors(s[1..], h);
    }
  }

  lemma {:induction false} SurvivorsConcat(s: seq<Value>, t: seq<Value>, h: Value)
    ensures Survivors(s + t, h) == Survivors(s, h) + Survivors(t, h)
  {
    if s == [] {
      assert s + t == t;
    } else {
      assert (s + t)[0] == s[0];
      assert (s + t)[1..] == s[1..] + t;
      SurvivorsConcat(s[1..], t, h);
    }
  }

  /** Removal keeps the survivors in their original order: it distributes over concatenation. */
  lemma WithoutConcat(s: seq<Value>, t: seq<Value>, h: Value)
    ensures Without(s + t, h) == Without(s, h) + Without(t, h)
  {
    WithoutIsSurvivors(s + t, h);
    WithoutIsSurvivors(s, h);
    WithoutIsSurvivors(t, h);
    SurvivorsConcat(s, t, h);
  }

  /**
   * A clear step keeps the surviving promises in their original order: on
   * a state split in two, it acts on each half independently.
   */
  lemma ClearKeepsOrder(c: AwaitConfig.Config, s: seq<Value>, t: seq<Value>, a: Action)
    requires a.kind != c.awaitActionName && a.kind == c.clearActionName
    ensures Reduce(c, Some(s + t), a) == Reduce(c, Some(s), a) + Reduce(c, Some(t), a)
  {
    var h := Field(a, "promise");
    WithoutConcat(s, t, h);
    assert Reduce(c, Some(s), a) == Without(s, h);
    assert Reduce(c, Some(t), a) == Without(t, h);
    assert Reduce(c, Some(s + t), a) == Without(s + t, h);
  }

  /** No two positions hold strictly equal values: each promise is outstanding at most once. */
  ghost predicate Distinct(s: seq<Value>) {
    forall i, j | 0 <= i < j < |s| :: !StrictEq(s[i], s[j])
  }

  lemma DistinctTail(s: seq<Value>)
    requires Distinct(s) && s != []
    ensures Distinct(s[1..])
  {
    var t := s[1..];
    forall i, j | 0 <= i < j < |t| ensures !StrictEq(t[i], t[j]) {
      assert t[i] == s[i + 1] && t[j] == s[j + 1];
    }
  }

  lemma DistinctCons(x: Value, w: seq<Value>, t: seq<Value>)
    requires Distinct(w)
    requires forall y :: y in w ==> y in t
    requires forall k | 0 <= k < |t| :: !StrictEq(x, t[k])
    ensures Distinct([x] + w)
  {
    var r := [x] + w;
    forall i, j | 0 <= i < j < |r| ensures !StrictEq(r[i], r[j]) {
      if i == 0 {
        assert r[j] == w[j - 1];
        assert r[j] in t;
      } else {
        assert r[i] == w[i - 1] && r[j] == w[j - 1];
      }
    }
  }

  lemma {:induction false} WithoutKeepsDistinct(s: seq<Value>, h: Value)
    requires Distinct(s)
    ensures Distinct(Without(s, h))
  {
    if s != [] {
      var t := s[1..];
      DistinctTail(s);
      WithoutKeepsDistinct(t, h);
      if !StrictEq(s[0], h) {
        forall k | 0 <= k < |t| ensures !StrictEq(s[0], t[k]) {
          assert t[k] == s[k + 1];
        }
        DistinctCons(s[0], Without(t, h), t);
      }
    }
  }

  /**
   * The outstanding-set invariant: a reducer step keeps the promises
   * distinct, provided no promise is awaited while it is still outstanding.
   */
  lemma ReduceKeepsDistinct(c: AwaitConfig.Config, s: seq<Value>, a: Action)
    requires Distinct(s)
    requires a.kind == c.awaitActionName ==> IndexOf(s, Field(a, "promise")) < 0
    ensures Distinct(Reduce(c, Some(s), a))
  {
    var r := Reduce(c, Some(s), a);
    if a.kind == c.awaitActionName {
      forall i, j | 0 <= i < j < |r| ensures !StrictEq(r[i], r[j]) {
        if j < |s| {
          assert r[i] == s[i] && r[j] == s[j];
        } else {
          assert r[i] == s[i];
        }
      }
    } else if a.kind == c.clearActionName && IndexOf(s, Field(a, "promise")) >= 0 {
      WithoutKeepsDistinct(s, Field(a, "promise"));
    }
  }

  /**
   * An await then a clear of the same promise, starting from the absent
   * state, leave the state empty again.
   */
  lemma AwaitThenClear(c: AwaitConfig.Config, tracked: Action, cleared: Action)
    requires c.awaitActionName != c.clearActionName
    requires tracked.kind == c.awaitActionName && cleared.kind == c.clearActionName
    requires Field(tracked, "promise") == Field(cleared, "promise")
    requires StrictEq(Field(tracked, "promise"), Field(tracked, "promise"))
    ensures Reduce(c, None, tracked) == [Field(tracked, "promise")]
    ensures Reduce(c, Some(Reduce(c, None, tracked)), cleared) == []
  {
    var h := Field(tracked, "promise");
    assert Reduce(c, None, tracked) == [h];
    assert IndexOf([h], h) == 0;
    assert [h][1..] == [];
  }

  /** `NaN` is never found by `indexOf`, so a NaN "promise", once awaited, is never cleared. */
  lemma NaNIsNeverCleared(c: AwaitConfig.Config, s: seq<Value>, a: Action)
    requires a.kind != c.awaitActionName && a.kind == c.clearActionName
    requires Field(a, "promise") == NaN
    ensures Reduce(c, Some(s), a) == s
  {
    assert IndexOf(s, NaN) < 0;
    assert Transition(c, Some(s), a) == SameArray;
  }
}

=== FILE: promisemiddleware.dfy ===
/**
 * `promiseMiddleware`: splits an action carrying a promise into a pending
 * action, emitted at once, and a resolved or rejected action emitted when
 * the promise settles. The original action is not forwarded.
 */
module PromiseMiddleware {
  import opened JsValue
  import opened Promises
  import opened Actions

  const PendingSuffix: string := "//PENDING"
  const ResolvedSuffix: string := ""
  const RejectedSuffix: string := "//REJECTED"

  /** The merged configuration: the suffix appended to the action type for each phase. */
  datatype Config = Config(pendingSuffix: string, resolvedSuffix: string, rejectedSuffix: string)

  /** The exported `defaults`. */
  const Defaults: Config := Config(PendingSuffix, ResolvedSuffix, RejectedSuffix)

  /** `{ ...defaults, ...options }`: each given option replaces its own default and nothing else. */
  function Configure(options: map<string, string>): (c: Config)
    ensures "pendingSuffix" in options ==> c.pendingSuffix == options["pendingSuffix"]
    ensures "pendingSuffix" !in options ==> c.pendingSuffix == PendingSuffix
    ensures "resolvedSuffix" in options ==> c.resolvedSuffix == options["resolvedSuffix"]
    ensures "resolvedSuffix" !in options ==> c.resolvedSuffix == ResolvedSuffix
    ensures "rejectedSuffix" in options ==> c.rejectedSuffix == options["rejectedSuffix"]
    ensures "rejectedSuffix" !in options ==> c.rejectedSuffix == RejectedSuffix
  {
    Config(
      Pick(options, "pendingSuffix", Defaults.pendingSuffix),
      Pick(options, "resolvedSuffix", Defaults.resolvedSuffix),
      Pick(options, "rejectedSuffix", Defaults.rejectedSuffix))
  }

  /** `rest` in `const { promise, type, ...rest } = action`. */
  function Rest(a: Action): map<string, Value> {
    a.props - {"promise"}
  }

  /** `{ ...rest, type: type + pendingSuffix, promise }`. */
  function PendingAction(c: Config, a: Action): (p: Action)
    ensures p.kind == a.kind + c.pendingSuffix
    ensures p.props.Keys == a.props.Keys + {"promise"}
    ensures forall k :: k != "type" ==> Field(p, k) == Field(a, k)
  {
    ActionRecord(a.kind + c.pendingSuffix, Rest(a)["promise" := Field(a, "promise")])
  }

  /** `{ ...rest, result, type: type + resolvedSuffix }`: the promise is dropped, the result added. */
  function ResolvedAction(c: Config, a: Action, result: Value): (r: Action)
    ensures r.kind == a.kind + c.resolvedSuffix
    ensures Field(r, "result") == result
    ensures "promise" !in r.props
    ensures r.props.Keys == a.props.Keys - {"promise"} + {"result"}
    ensures forall k :: k != "type" && k != "promise" && k != "result" ==> Field(r, k) == Field(a, k)
  {
    ActionRecord(a.kind + c.resolvedSuffix, Rest(a)["result" := result])
  }

  /** `{ ...rest, error, type: type + rejectedSuffix }`: the promise is dropped, the error added. */
  function RejectedAction(c: Config, a: Action, error: Value): (r: Action)
    ensures r.kind == a.kind + c.rejectedSuffix
    ensures Field(r, "error") == error
    ensures "promise" !in r.props
    ensures r.props.Keys == a.props.Keys - {"promise"} + {"error"}
    ensures forall k :: k != "type" && k != "promise" && k != "error" ==> Field(r, k) == Field(a, k)
  {
    ActionRecord(a.kind + c.rejectedSuffix, Rest(a)["error" := error])
  }

  /**
   * The synchronous part of `(action) => { ... }`. An action without a
   * promise goes to `next` unchanged and alone. Otherwise only the pending
   * action goes to `next`, and the call returns the derived promise chain,
   * unless `next` threw on the pending action, in which case the exception
   * escapes before any handler is attached.
   */
  function Dispatch(c: Config, next: Action -> Reaction, a: Action): (s: Step)
    ensures !IsPromise(Field(a, "promise")) ==>
      s.emitted == [a] && s.completion == Complete(next(a)) && !s.attached
    ensures IsPromise(Field(a, "promise")) ==> s.emitted == [PendingAction(c, a)]
    ensures IsPromise(Field(a, "promise")) ==>
      (s.attached <==> next(PendingAction(c, a)).Returned?)
    ensures IsPromise(Field(a, "promise")) && next(PendingAction(c, a)).Threw? ==>
      s.completion == Abrupt(next(PendingAction(c, a)).error)
    ensures s.completion == Chained <==> s.attached
    ensures IsPromise(Field(a, "promise")) && c.pendingSuffix != "" ==> a !in s.emitted
  {
    if !IsPromise(Field(a, "promise")) then
      Step([a], Complete(next(a)), false)
    else
      var pending := PendingAction(c, a);
      match next(pending)
      case Returned(_) => Step([pending], Chained, true)
      case Threw(e) => Step([pending], Abrupt(e), false)
  }

  /** The trailing `.catch((error) => { next(rejected) })`: it returns undefined, so the chain resolves. */
  function Catch(c: Config, next: Action -> Reaction, a: Action, error: Value): (s: Settled)
    ensures s.emitted == [RejectedAction(c, a, error)]
    ensures next(RejectedAction(c, a, error)).Returned? ==> s.chain == Resolved(Undefined)
    ensures next(RejectedAction(c, a, error)).Threw? ==>
      s.chain == Rejected(next(RejectedAction(c, a, error)).error)
  {
    var rejected := RejectedAction(c, a, error);
    match next(rejected)
    case Returned(_) => Settled([rejected], Resolved(Undefined))
    case Threw(t) => Settled([rejected], Rejected(t))
  }

  /**
   * `promise.then(onResolved).catch(onError)` once the promise settles with
   * `outcome`. A rejection is reported and swallowed. If `next` throws on
   * the resolved action, the catch handler also reports that exception as
   * a rejected action.
   */
  function Settle(c: Config, next: Action -> Reaction, a: Action, outcome: Outcome): (s: Settled)
    ensures 1 <= |s.emitted| <= 2
    ensures outcome.Rejected? ==> s.emitted == [RejectedAction(c, a, outcome.error)]
    ensures outcome.Resolved? ==> s.emitted[0] == ResolvedAction(c, a, outcome.value)
    ensures |s.emitted| == 2 <==>
      outcome.Resolved? && next(ResolvedAction(c, a, outcome.value)).Threw?
    ensures |s.emitted| == 2 ==>
      s.emitted[1] == RejectedAction(c, a, next(ResolvedAction(c, a, outcome.value)).error)
    ensures var last := s.emitted[|s.emitted| - 1];
      s.chain ==
        if next(last).Threw? then Rejected(next(last).error)
        else if outcome.Resolved? && |s.emitted| == 1 then outcome
        else Resolved(Undefined)
  {
    match outcome
    case Resolved(v) =>
      var resolved := ResolvedAction(c, a, v);
      (match next(resolved)
       case Returned(_) => Settled([resolved], Resolved(v))
       case Threw(t) =>
         var caught := Catch(c, next, a, t);
         Settled([resolved] + caught.emitted, caught.chain))
    case Rejected(e) => Catch(c, next, a, e)
  }

  /**
   * With the defaults, a resolved action reuses the original type and the
   * other two phases append `//PENDING` and `//REJECTED`.
   */
  lemma DefaultPhaseTypes(a: Action, v: Value, e: Value)
    ensures PendingAction(Configure(map[]), a).kind == a.kind + "//PENDING"
    ensures ResolvedAction(Configure(map[]), a, v).kind == a.kind
    ensures RejectedAction(Configure(map[]), a, e).kind == a.kind + "//REJECTED"
  {
    assert a.kind + "" == a.kind;
  }

  /**
   * When `next` never throws, a promise action yields exactly the pending
   * action, then exactly one of the resolved or rejected actions, and the
   * returned chain never rejects.
   */
  lemma OnePhaseActionPerSettlement(c: Config, next: Action -> Reaction, a: Action, outcome: Outcome)
    requires IsPromise(Field(a, "promise"))
    requires forall x :: next(x).Returned?
    ensures Run(Dispatch(c, next, a), Settle(c, next, a, outcome)) ==
      [PendingAction(c, a),
       if outcome.Resolved? then ResolvedAction(c, a, outcome.value) else RejectedAction(c, a, outcome.error)]
    ensures Settle(c, next, a, outcome).chain.Resolved?
  {
  }
}
